=== FILE: README.md ===
# FlightView control rules, modelled in Dafny

FlightView's `ControlsBox` is the Qt control panel of a live viewer for
hyperspectral camera frames. Beneath its widget code sit a few integer and
string rules that decide what is sent to the frame worker and the recording
back end. This project models those rules as pure Dafny functions and proves
what they promise:

- **Overlay spans** (`Overlay`). The vertical-overlay profile averages three
  column windows: left, centre and right. Each window is anchored to a
  cross-hair-derived column and has a user-set width. `validateOverlayParams`
  clamps each of the six bounds independently onto a valid column.
- **Dark-mask file range** (`MaskFile`). The number of frames comes from the
  file's size. A 1-indexed inclusive frame range `[lo, hi]` becomes an element
  count and an element offset for `mask_selected`.
- **File-name validation** (`FileName`). A save target is rejected when it is
  empty, when it holds a disallowed character, or when it is not absolute. These
  checks run in that order. After them comes the overwrite confirmation.
- **Save controls** (`SaveControl`). This is a small state machine over the
  save and stop buttons, the frame-count and averaging spin boxes, and the
  remembered frame count. It covers the start, stop, progress and remote-save
  slots.
- **Lines-to-average slider** (`ProfileLines`). This gives the slider's range,
  its start value and whether it is enabled for profile and FFT tabs.

`QtRange` gives the documented behaviour of Qt's integer widgets that these
rules depend on:
- `setMinimum` raises the maximum if needed.
- `setMaximum` lowers the minimum if needed.
- `setValue` clamps the value into the range.
- A value the user types is kept only when it lies in the range. Qt's
  validator refuses a number beyond the range. An out-of-range entry reverts
  to the previous value when editing finishes, because the correction mode
  stays at the default, `CorrectToPreviousValue`.

`ImageTypes` mirrors the `image_t` enumeration.

Dialogs, the file system and the frame worker are replaced by inputs:
- whether the file opens, and its size in bytes;
- whether the save target exists as a regular file, and whether the user confirms the overwrite;
- whether the range dialog was accepted, and the frame numbers typed into it;
- the flight-mode file names from the name generator;
- the cross-hair columns and the frame geometry.

## Model

| member | source | states |
|---|---|---|
| `Overlay.DeriveSpans` | controlsbox.cpp:1150-1157 | For the left and right windows, `end - start` equals the width. For a non-negative width, `start + end = 2*anchor + width mod 2`, where the anchor is `crossStartCol` or `crossWidth`. For the centre window, `start + end = 2*crosshair_x`, and `end - start` is twice the width halved with C truncation. |
| `Overlay.ClampIndex` | controlsbox.cpp:1179-1207 | A single bound lands in `[0, frameWidth-1]` when `frameWidth >= 1`. In-range values are unchanged. Values below the range go to 0 and values above go to the last column. A frame of width < 1 sends every bound to `frameWidth-1`. |
| `Overlay.ValidateSpans` | controlsbox.cpp:1174-1209 | The two passes over all six bounds give each bound the clamp of its own input alone, so clamping one never shifts another. With `frameWidth >= 1` all six bounds lie in the frame. Spans already in the frame are returned unchanged. |
| `Overlay.ValidateSpansIdempotent` | controlsbox.cpp:1182-1207 | Clamping twice is the same as clamping once. |
| `Overlay.ClampKeepsOrder` | controlsbox.cpp:1182-1207 | Clamping keeps two ordered bounds ordered and never lengthens the range between them. |
| `Overlay.UpdateOverlayParams` | controlsbox.cpp:1140-1171 | The windows sent to the frame worker are the derived windows, clamped. They are all in the frame. Each window is well ordered and no longer than its user width. |
| `Overlay.TransmittedSpans` | controlsbox.cpp:1122-1131 | For a profile view, only the vertical-overlay profile sends real windows. Every other profile sends the all-zero "no overlay" value. |
| `MaskFile.NumFrames` | controlsbox.cpp:1009-1018 | The frame count is the number of whole frames of `dataHeight*frameWidth` 16-bit samples that fit in the file. |
| `MaskFile.FrameRange` | controlsbox.cpp:1033-1038 | The frame spin boxes span `[1, num_frames]`. When the file holds no whole frame they collapse to `[0, 0]`. |
| `MaskFile.FirstFrame` | controlsbox.cpp:1033-1035 | The "Read from frame" box ends at the typed frame when that lies in `[1, num_frames]`, otherwise at its start value 1. It holds 0 when the file has no whole frame. |
| `MaskFile.LastFrame` | controlsbox.cpp:1036-1038 | The "to" box ends at the typed frame when that lies in `[1, num_frames]`, otherwise at its start value `num_frames`. It holds 0 when the file has no whole frame. |
| `MaskFile.SelectRange` | controlsbox.cpp:1060-1073 | A selection is emitted exactly when `hi >= lo-1`. It starts at element `(lo-1)*frame_size` and ends after frame `hi`. The empty range `hi == lo-1` is widened to the single frame `lo`. A range with `hi < lo-1` emits nothing. |
| `MaskFile.GetMaskFileAsWritten` | controlsbox.cpp:991-1077 | The load as written emits only when a file was chosen, it opened, it is non-empty and the dialog was accepted. An empty file never emits. |
| `MaskFile.AsWrittenReadsBeforeFileStart` | controlsbox.cpp:1018-1069 | A file that is non-empty but shorter than one frame makes the as-written load emit one frame's worth of elements at offset `-frame_size`. |
| `MaskFile.GetMaskFile` | controlsbox.cpp:991-1077 | Emits exactly when a file was chosen, it opened, it holds at least one whole frame, the dialog was accepted and the frames the boxes hold have `hi >= lo-1`. The emitted count and offset are the range arithmetic applied to those frames: `(hi-lo+1)*frame_size` elements, or one frame when `hi == lo-1`, from `(lo-1)*frame_size`. Every emission reads at least one frame from a non-negative offset and stays inside the file's frames and bytes. |
| `MaskFile.ChosenFramesWithinFile` | controlsbox.cpp:1031-1073 | For a file of at least one frame, any frame numbers the spin boxes can hold give a selection inside the file. |
| `MaskFile.CorrectionOnlyForShortFiles` | controlsbox.cpp:1018-1023 | For an empty file or a file of at least one whole frame, the corrected load and the as-written load end the same way. |
| `FileName.Found` | controlsbox.cpp:938-943 | The reported characters are disallowed characters that occur in the name. Every disallowed character in the name is reported. |
| `FileName.FoundEmptyIffValid` | controlsbox.cpp:938-949 | The report is empty exactly when no character of the name is disallowed. |
| `FileName.CollectInvalidChars` | controlsbox.cpp:938-944 | The collecting loop produces the report. The report is empty exactly when the name holds no disallowed character. |
| `FileName.ValidateFileName` | controlsbox.cpp:924-973 | Each verdict holds exactly when its condition does, checked in order: empty; disallowed characters, naming every one present and only those; not starting with `/`; and a target that exists as a regular file under overwrite checking, which the caller declines. Otherwise the name is accepted. |
| `FileName.ResultCode` | controlsbox.cpp:924-972 | The return value is `QDialog::Accepted` exactly on acceptance, and -1 exactly for an empty, disallowed-character or relative name. |
| `SaveControl.CorrectFrameCount` | controlsbox.cpp:875-880 | A count of 0 stays 0, meaning continuous recording. Any nonzero result is at least the averaging factor and never below the request. Counts already at or above the factor are kept. |
| `SaveControl.CorrectFrameCountIdempotent` | controlsbox.cpp:875-880 | Correcting a corrected count changes nothing. |
| `SaveControl.SaveFinite` | controlsbox.cpp:845-891 | A rejected name sends nothing and changes nothing. Flight mode skips validation and sends the generator's names with averaging 1. Otherwise the corrected count, the box's name and the averaging factor are sent, followed by the secondary log. Starting disables everything but Stop and remembers the count sent. |
| `SaveControl.Initial` | controlsbox.cpp:288-300 | The constructor leaves the controls valid and idle: "Stop Saving" disabled, frame box 0, averaging box 1. |
| `SaveControl.Stop` | controlsbox.cpp:893-906 | Stopping sends stop-saving and stop-collection and returns the buttons to idle. It restores the remembered count, bounded into the frame box's range. Nothing else changes. |
| `SaveControl.Progress` | controlsbox.cpp:907-923 | A report of 0 remaining resets the controls exactly as Stop does, but sends nothing. A positive report only changes the frame box: counts up to 10^7 are shown as they are, larger counts below 2^31 show 10^7, and counts of 2^31 or more wrap negative and show 0. |
| `SaveControl.StartThenStop` | controlsbox.cpp:862-905 | Starting and then stopping returns the controls to where they were, except that the frame box and the remembered count hold the count that was sent. With no correction needed, only the remembered count changes. |
| `SaveControl.NoSecondStart` | controlsbox.cpp:862-867 | A click that starts a recording finds "Save Frames" enabled and disables it, so a second click starts nothing. |
| `SaveControl.SaveRemote` | controlsbox.cpp:821-828 | A remote save turns overwrite checking off and sets the file name. It passes the unsigned counts on as `int`s and bounds them into the boxes' ranges. It starts nothing while a save runs, and then the frame box holds the bounded request. In ordinary mode with "Save Frames" enabled it starts a recording exactly when the name is well formed. It then sends `StartSavingFinite` with the corrected count, the name and the bounded averaging, followed by the secondary log `name + "-GPS-TEMP-SECONDARY.log"`. In flight mode with the button enabled it starts whatever the name, with the generated names and no averaging. |
| `SaveControl.RemoteSaveHugeCounts` | controlsbox.cpp:821-826 | Remote counts of 3,000,000,000 wrap negative and fall to the boxes' minimums. An idle ordinary-mode save then starts a continuous, unaveraged recording. |
| `SaveControl.ApplyKeepsValid` | controlsbox.cpp:288-300 | Every event keeps the buttons in the idle or the saving pattern and every number inside its spin box's range. Every start it sends is well formed. |
| `SaveControl.InitialRunsStayValid` | controlsbox.cpp:288-300 | Starting from the constructor's state, every run keeps the controls valid and sends only well-formed starts. |
| `SaveControl.RunKeepsValid` | controlsbox.cpp:829-923 | Over any event sequence the controls stay valid. Every recording started averages at least one frame. Outside flight mode each one is continuous or covers a full averaging group. In flight mode none averages. |
| `ProfileLines.ProfileTab` | controlsbox.cpp:510-536 | The slider spans the averaged axis (height for horizontal mean and cross, width otherwise), and its value stays inside it. It starts at the remembered line count for cross-hair profiles, and at the full axis otherwise. The spin box is enabled exactly for a cross-hair profile with the cross-hair set. The slider is enabled in that case and always for the vertical overlay. |
| `ProfileLines.FftTab` | controlsbox.cpp:568-578 | The slider spans the frame width and starts at the remembered horizontal line count. Slider and spin box are enabled together, exactly when vertical-cross is checked and a cross-hair is set. |

## Left out

- Widget construction, layouts, visibility, signal/slot connection bookkeeping and `attempt_pointers`: these wire the UI and hold no rules.
- Settings persistence (`loadSettings`, `saveSettings`, `setDefaultSettings`, `triggerSaveSettings`): a wrapper over a key/value store.
- Dialogs and file I/O (`QFileDialog`, `QMessageBox`, `fopen`/`fseek`/`ftell`, `QFileInfo`): these become inputs. The overwrite dialog's result is reduced to "confirmed or not".
- The flight-mode file-name generator (`fnamegen`): its two names are inputs.
- `MaskFile.SelectRange`: element counts and offsets are unbounded integers. The `int` to `unsigned int` cast of the count is not modelled, and neither is the 64-bit wrap of `(lo-1)*frame_size`. For `lo = 0` the offset is modelled as `-frame_size`, which is the value the wrapped arithmetic gives for any real frame size.
- `MaskFile.NumFrames`: a frame size of zero would divide by zero in the source. The model requires a positive frame size.
- The frame worker's internals (`updateMeanRange`, its own `updateOverlayParams`, the standard-deviation, dark-subtraction and FFT computations): they are called, not shown.
- Dark-frame capture start/stop (`start_dark_collection_slot`, `stop_dark_collection_slot`): button toggles around back-end signals, with no rule of their own.
- FPS text formatting (`update_backend_delta`) and the FFT widget's frequency bins: floating point, display only.
- The starting values of `checkForOverwrites` and `previousNumSaved` are set in `controlsbox.h`, which is not part of this model. `SaveControl.Initial` takes them as parameters.

## Findings

| source | as written | input that shows it | evidently intended | confidence | as-written member | corrected member |
|---|---|---|---|---|---|---|
| controlsbox.cpp:1018-1066 | A mask file with `0 < size < 2*frame_size` bytes passes the empty-file check, but `num_frames` is 0. The spin boxes' range collapses to `[0, 0]`, so `lo = hi = 0`, and one frame is emitted at offset `(0-1)*frame_size`. | A 2-byte file, frame 1×2: `mask_selected(name, 2, -2)` | Reject a file that holds no whole frame, as an empty one is rejected | medium (relies on Qt lowering the minimum in `setMaximum`); not executed | `MaskFile.AsWrittenReadsBeforeFileStart` | `MaskFile.GetMaskFile` |

=== FILE: file_name.dfy ===
/** Checks a target file name must pass before frames are saved to it. */
module FileName {

  /** Characters a file name may not contain, in the order the check reports
      them; `"` and `'` are listed twice. */
  const NotAllowed: string := ",^@=+{}[]~!?:&*\"|#%<>$\"'();`'"

  /** Does `name` contain a disallowed character? */
  predicate HasInvalidChar(name: string)
  {
    exists i :: 0 <= i < |name| && name[i] in NotAllowed
  }

  /** The characters of `chars` that occur in `name`, in `chars` order. */
  function Found(chars: string, name: string): (r: string)
    ensures |r| <= |chars|
    ensures forall i :: 0 <= i < |r| ==> r[i] in chars && r[i] in name
    ensures forall i :: 0 <= i < |chars| && chars[i] in name ==> chars[i] in r
  {
    if |chars| == 0 then []
    else
      var last := chars[|chars| - 1];
      var prefix := chars[..|chars| - 1];
      assert forall i :: 0 <= i < |prefix| ==> prefix[i] == chars[i];
      Found(prefix, name) + (if last in name then [last] else [])
  }

  /** The offending characters are reported exactly when there are some. */
  lemma FoundEmptyIffValid(name: string)
    ensures |Found(NotAllowed, name)| == 0 <==> !HasInvalidChar(name)
  {
    var r := Found(NotAllowed, name);
    if HasInvalidChar(name) {
      var i :| 0 <= i < |name| && name[i] in NotAllowed;
      var j :| 0 <= j < |NotAllowed| && NotAllowed[j] == name[i];
      assert NotAllowed[j] in r;
    }
    if 0 < |r| {
      assert r[0] in name;
      var i :| 0 <= i < |name| && name[i] == r[0];
      assert name[i] in NotAllowed;
    }
  }

  /** The loop of `validateFileName` that collects the offending characters. */
  method CollectInvalidChars(name: string) returns (qs: string)
    ensures qs == Found(NotAllowed, name)
    ensures |qs| == 0 <==> !HasInvalidChar(name)
  {
    qs := [];
    var k := 0;
    while k < |NotAllowed|
      invariant 0 <= k <= |NotAllowed|
      invariant qs == Found(NotAllowed[..k], name)
    {
      var c := NotAllowed[k];
      assert NotAllowed[..k + 1][..k] == NotAllowed[..k];
      if c in name {
        qs := qs + [c];
      }
      k := k + 1;
    }
    assert NotAllowed[..k] == NotAllowed;
    FoundEmptyIffValid(name);
  }

  /** How validation of a file name ends. */
  datatype Verdict =
    | Accepted
    | EmptyName
    | InvalidChars(found: string)
    | NotAbsolute
    | OverwriteDeclined

  /** A name that passes the three checks on its text: non-empty, free of
      disallowed characters and starting with `/`. */
  predicate WellFormed(name: string)
  {
    0 < |name| && !HasInvalidChar(name) && name[0] == '/'
  }

  /** `validateFileName`. The checks run in order (empty, disallowed
      characters, absolute path); an existing target under overwrite checking
      then needs the caller's confirmation. */
  function ValidateFileName(name: string, targetExists: bool, checkForOverwrites: bool,
                            confirmOverwrite: bool): (v: Verdict)
    ensures v == EmptyName <==> |name| == 0
    ensures v.InvalidChars? <==> 0 < |name| && HasInvalidChar(name)
    ensures v.InvalidChars? ==> 0 < |v.found|
    ensures v.InvalidChars? ==>
      forall i :: 0 <= i < |v.found| ==> v.found[i] in NotAllowed && v.found[i] in name
    ensures v.InvalidChars? ==>
      forall j :: 0 <= j < |NotAllowed| && NotAllowed[j] in name ==> NotAllowed[j] in v.found
    ensures v == NotAbsolute <==> 0 < |name| && !HasInvalidChar(name) && name[0] != '/'
    ensures v == OverwriteDeclined <==>
      WellFormed(name) && targetExists && checkForOverwrites && !confirmOverwrite
    ensures v == Accepted <==>
      WellFormed(name) && !(targetExists && checkForOverwrites && !confirmOverwrite)
  {
    FoundEmptyIffValid(name);
    if |name| == 0 then EmptyName
    else if |Found(NotAllowed, name)| != 0 then InvalidChars(Found(NotAllowed, name))
    else if name[0] != '/' then NotAbsolute
    else if targetExists && checkForOverwrites && !confirmOverwrite then OverwriteDeclined
    else Accepted
  }

  /** The integer the source returns: -1 for a defective name, `QDialog::Accepted`
      (1) on acceptance, and 0 when the overwrite is declined (the Cancel
      button's code, 0x00400000, cut to 16 bits). */
  function ResultCode(v: Verdict): (code: int)
    ensures code == 1 <==> v == Accepted
    ensures code == -1 <==> v == EmptyName || v.InvalidChars? || v == NotAbsolute
  {
    match v
    case Accepted => 1
    case OverwriteDeclined => 0
    case _ => -1
  }
}

=== FILE: image_types.dfy ===
/** The catalogue of image and profile kinds a view can display. */
module ImageTypes {

  /** Mirrors the `image_t` enumeration, in declaration order. */
  datatype ImageType =
    | Base
    | Dsf
    | StdDev
    | SpatialProfile
    | SpectralProfile
    | SpatialMean
    | SpectralMean
    | StdDevHistogram
    | VerticalMean
    | HorizontalMean
    | FftMean
    | VerticalCross
    | HorizontalCross
    | VertOverlay
    | Waterfall
    | Flight
}

=== FILE: mask_file.dfy ===
/** Loading a dark-frame mask from a recording file: how many frames the file
    holds, and which element count and element offset the selected 1-indexed
    inclusive frame range [lo, hi] becomes. Dialogs and the file system are
    replaced by the answers they give. */
module MaskFile {
  import QtRange

  /** Bytes per stored sample (`sizeof(uint16_t)`). */
  const SampleBytes: nat := 2

  /** Frame geometry reported by the frame worker. */
  datatype Geometry = Geometry(dataHeight: nat, frameWidth: nat) {
    /** Samples in one frame. */
    function FrameSize(): nat { dataHeight * frameWidth }

    /** Bytes in one stored frame. */
    function FrameBytes(): (b: nat)
      ensures 0 < FrameSize() ==> 0 < b
    { FrameSize() * SampleBytes }
  }

  /** What the user and the file system supply to one load: the name picked
      in the file dialog (empty when cancelled), whether the file opens, its
      size in bytes, whether the range dialog was accepted, and the two frame
      numbers the user last typed into its spin boxes. */
  datatype Request = Request(fileName: string, opens: bool, sizeBytes: nat,
                             accepted: bool, loEntry: int, hiEntry: int)

  /** How a load ends. Only `Selected` emits `mask_selected`, carrying the
      number of elements to read and the element offset to start at. */
  datatype Outcome =
    | NoFileChosen
    | CannotOpen
    | NoData
    | TooShort
    | Cancelled
    | InvalidRange
    | Selected(fileName: string, elemToRead: int, offset: int)

  /** The number of whole frames the file holds. */
  function NumFrames(sizeBytes: nat, g: Geometry): (n: nat)
    requires 0 < g.FrameSize()
    ensures n * g.FrameBytes() <= sizeBytes < (n + 1) * g.FrameBytes()
  {
    var fb := g.FrameBytes();
    var q := sizeBytes / fb;
    DivBounds(sizeBytes, fb, q);
    q
  }

  /** The quotient `q` of `a` by `b` counts the whole copies of `b` in `a`. */
  lemma DivBounds(a: nat, b: nat, q: int)
    requires 0 < b
    requires q == a / b
    ensures 0 <= q
    ensures q * b <= a < (q + 1) * b
  {
    assert a == q * b + a % b;
    assert (q + 1) * b == q * b + b;
  }

  /** Multiplying by a non-negative factor keeps order. */
  lemma MulMonotone(x: int, y: int, k: nat)
    ensures x <= y ==> x * k <= y * k
  {
    if x <= y {
      assert y * k == x * k + (y - x) * k;
    }
  }

  /** Range of both frame spin boxes: minimum 1, then maximum `numFrames`. */
  function FrameRange(numFrames: nat): (r: QtRange.Range)
    ensures r.Valid()
    ensures 1 <= numFrames ==> r == QtRange.Range(1, numFrames)
    ensures numFrames == 0 ==> r == QtRange.Range(0, 0)
  {
    QtRange.SetMaximum(QtRange.SetMinimum(QtRange.Default, 1), numFrames)
  }

  /** The frame the "Read from frame" box holds when the dialog closes. It
      starts at `setValue(1)` and takes the user's entry only when that lies
      in the box's range. */
  function FirstFrame(numFrames: nat, entry: int): (lo: int)
    ensures 1 <= numFrames && 1 <= entry <= numFrames ==> lo == entry
    ensures 1 <= numFrames && !(1 <= entry <= numFrames) ==> lo == 1
    ensures numFrames == 0 ==> lo == 0
  {
    var range := FrameRange(numFrames);
    QtRange.Enter(range, entry, QtRange.Bound(range, 1))
  }

  /** The frame the "to" box holds when the dialog closes. It starts at
      `setValue(num_frames)` and takes the user's entry only when that lies
      in the box's range. */
  function LastFrame(numFrames: nat, entry: int): (hi: int)
    ensures 1 <= numFrames && 1 <= entry <= numFrames ==> hi == entry
    ensures 1 <= numFrames && !(1 <= entry <= numFrames) ==> hi == numFrames
    ensures numFrames == 0 ==> hi == 0
  {
    var range := FrameRange(numFrames);
    QtRange.Enter(range, entry, QtRange.Bound(range, numFrames))
  }

  /** Step 4's range arithmetic on the chosen frame numbers. */
  datatype Selection = Emit(elemToRead: int, offset: int) | Reject

  /** A selection is emitted exactly when `hi >= lo - 1`. It starts at frame
      `lo` and ends after frame `hi`. The element count is zero only when
      `hi == lo - 1`, and that empty range is widened to the single frame `lo`. */
  function SelectRange(lo: int, hi: int, frameSize: nat): (s: Selection)
    ensures s.Emit? <==> lo - 1 <= hi
    ensures s.Emit? ==> s.offset == (lo - 1) * frameSize
    ensures s.Emit? && lo <= hi ==> s.offset + s.elemToRead == hi * frameSize
    ensures s.Emit? && hi < lo ==> s.offset + s.elemToRead == lo * frameSize
  {
    var elems := hi - lo + 1;
    var offset := (lo - 1) * frameSize;
    if 0 < elems then Emit(elems * frameSize, offset)
    else if elems == 0 then Emit(frameSize, offset)
    else Reject
  }

  /** Steps 3 and 4 once the file has been sized and the dialog accepted. */
  function ChooseFrames(fileName: string, numFrames: nat, loEntry: int, hiEntry: int, frameSize: nat): Outcome
  {
    match SelectRange(FirstFrame(numFrames, loEntry), LastFrame(numFrames, hiEntry), frameSize)
    case Emit(elems, offset) => Selected(fileName, elems, offset)
    case Reject => InvalidRange
  }

  /** `getMaskFile` as written: a file too short to hold one frame still
      reaches the range dialog, whose spin boxes then collapse to [0, 0]. */
  function GetMaskFileAsWritten(req: Request, g: Geometry): (o: Outcome)
    requires 0 < g.FrameSize()
    ensures o.Selected? ==> req.fileName != [] && req.opens && 0 < req.sizeBytes && req.accepted
    ensures req.sizeBytes == 0 ==> !o.Selected?
  {
    if req.fileName == [] then NoFileChosen
    else if !req.opens then CannotOpen
    else if req.sizeBytes == 0 then NoData
    else if !req.accepted then Cancelled
    else ChooseFrames(req.fileName, NumFrames(req.sizeBytes, g), req.loEntry, req.hiEntry, g.FrameSize())
  }

  /** A file holding some data but less than one frame makes the as-written
      load emit one frame's worth of elements at offset `-frameSize`: a read
      that starts before the beginning of the file. */
  lemma AsWrittenReadsBeforeFileStart(req: Request, g: Geometry)
    requires 0 < g.FrameSize()
    requires req.fileName != [] && req.opens && req.accepted
    requires 0 < req.sizeBytes < g.FrameBytes()
    ensures GetMaskFileAsWritten(req, g) == Selected(req.fileName, g.FrameSize(), -(g.FrameSize() as int))
    ensures GetMaskFileAsWritten(req, g).offset < 0
  {
    NoWholeFrame(req.sizeBytes, g);
    var fs := g.FrameSize();
    assert ChooseFrames(req.fileName, 0, req.loEntry, req.hiEntry, fs) == Selected(req.fileName, fs, -(fs as int));
  }

  /** A file shorter than one frame holds no whole frame. */
  lemma NoWholeFrame(sizeBytes: nat, g: Geometry)
    requires 0 < g.FrameSize()
    requires sizeBytes < g.FrameBytes()
    ensures NumFrames(sizeBytes, g) == 0
  {
    AtLeastOneCopy(NumFrames(sizeBytes, g), g.FrameBytes());
  }

  /** One or more copies of `b` add up to at least `b`. */
  lemma AtLeastOneCopy(n: nat, b: nat)
    ensures 1 <= n ==> b <= n * b
  {
    if 1 <= n {
      assert n * b == (n - 1) * b + b;
    }
  }

  /** Where a mask selection lies in a file of `numFrames` frames. */
  predicate WithinFile(o: Outcome, numFrames: nat, frameSize: nat)
    requires o.Selected?
  {
    && 0 <= o.offset
    && frameSize <= o.elemToRead
    && o.offset + o.elemToRead <= numFrames * frameSize
  }

  /** `getMaskFile` with a file shorter than one frame rejected like an
      empty one. Every emitted selection is a whole number of frames,
      at least one, that lies inside the file. */
  function GetMaskFile(req: Request, g: Geometry): (o: Outcome)
    requires 0 < g.FrameSize()
    ensures o.Selected? <==>
      && req.fileName != [] && req.opens && req.accepted
      && 1 <= NumFrames(req.sizeBytes, g)
      && FirstFrame(NumFrames(req.sizeBytes, g), req.loEntry) - 1
         <= LastFrame(NumFrames(req.sizeBytes, g), req.hiEntry)
    ensures o.Selected? ==> o.fileName == req.fileName
    ensures o.Selected? ==>
      SelectRange(FirstFrame(NumFrames(req.sizeBytes, g), req.loEntry),
                  LastFrame(NumFrames(req.sizeBytes, g), req.hiEntry), g.FrameSize())
      == Emit(o.elemToRead, o.offset)
    ensures o.Selected? ==> WithinFile(o, NumFrames(req.sizeBytes, g), g.FrameSize())
    ensures o.Selected? ==> SampleBytes * (o.offset + o.elemToRead) <= req.sizeBytes
  {
    if req.fileName == [] then NoFileChosen
    else if !req.opens then CannotOpen
    else if req.sizeBytes == 0 then NoData
    else if NumFrames(req.sizeBytes, g) == 0 then TooShort
    else if !req.accepted then Cancelled
    else
      var n := NumFrames(req.sizeBytes, g);
      ChosenFramesWithinFile(req.fileName, n, req.loEntry, req.hiEntry, g.FrameSize());
      WholeFramesFitInBytes(n, g, req.sizeBytes);
      ChooseFrames(req.fileName, n, req.loEntry, req.hiEntry, g.FrameSize())
  }

  /** `n` whole frames of `sizeBytes` bytes hold `n * FrameSize()` samples. */
  lemma WholeFramesFitInBytes(n: nat, g: Geometry, sizeBytes: nat)
    requires n * g.FrameBytes() <= sizeBytes
    ensures SampleBytes * (n * g.FrameSize()) <= sizeBytes
  {
    assert n * g.FrameBytes() == SampleBytes * (n * g.FrameSize());
  }

  /** The range arithmetic keeps a selection inside a file of at least one frame. */
  lemma ChosenFramesWithinFile(fileName: string, numFrames: nat, loEntry: int, hiEntry: int, frameSize: nat)
    requires 1 <= numFrames
    ensures var o := ChooseFrames(fileName, numFrames, loEntry, hiEntry, frameSize);
            o.Selected? ==> WithinFile(o, numFrames, frameSize)
  {
    var lo := FirstFrame(numFrames, loEntry);
    var hi := LastFrame(numFrames, hiEntry);
    var s := SelectRange(lo, hi, frameSize);
    if s.Emit? {
      MulMonotone(0, lo - 1, frameSize);
      var last := if lo <= hi then hi else lo;
      MulMonotone(last, numFrames, frameSize);
      MulMonotone(lo, hi, frameSize);
      assert s.offset + s.elemToRead == last * frameSize;
      assert frameSize <= s.elemToRead by {
        if lo <= hi {
          MulMonotone(1, hi - lo + 1, frameSize);
          assert s.elemToRead == (hi - lo + 1) * frameSize;
        }
      }
    }
  }

  /** The correction only touches files shorter than one frame: otherwise
      both versions end the same way. */
  lemma CorrectionOnlyForShortFiles(req: Request, g: Geometry)
    requires 0 < g.FrameSize()
    requires req.sizeBytes == 0 || 1 <= NumFrames(req.sizeBytes, g)
    ensures GetMaskFile(req, g) == GetMaskFileAsWritten(req, g)
  {
  }
}

=== FILE: overlay.dfy ===
/** The three overlay averaging windows (left, centre, right) that the
    vertical-overlay profile sends to the frame worker, and the clamping that
    keeps each of their six bounds on a valid pixel column. */
module Overlay {
  import opened ImageTypes

  /** Cross-hair derived anchor columns held by the frame worker. */
  datatype Anchors = Anchors(crossStartCol: int, crosshairX: int, crossWidth: int)

  /** User-set widths of the left, centre and right windows. */
  datatype Widths = Widths(lh: int, cent: int, rh: int)

  /** The six bounds sent on: a start and an end column per window. */
  datatype Spans = Spans(lhStart: int, lhEnd: int,
                         centStart: int, centEnd: int,
                         rhStart: int, rhEnd: int)

  /** The "no overlay plot" value sent when the active profile is not the
      vertical overlay. */
  const NoOverlay: Spans := Spans(0, 0, 0, 0, 0, 0)

  /** C's `w / 2` on `int`: truncates toward zero, unlike Dafny's `/`. */
  function Half(w: int): (h: int)
    ensures 0 <= w ==> 0 <= 2 * h <= w <= 2 * h + 1
    ensures w < 0 ==> 2 * h - 1 <= w <= 2 * h <= 0
  {
    if 0 <= w then w / 2 else -((-w) / 2)
  }

  /** The windows before clamping: left and right start half a width before
      their anchor and run for the full width; the centre runs half a width
      either side of the cross-hair. */
  function DeriveSpans(a: Anchors, w: Widths): (s: Spans)
    ensures s.lhEnd - s.lhStart == w.lh
    ensures s.rhEnd - s.rhStart == w.rh
    ensures s.centEnd - s.centStart == 2 * Half(w.cent)
    ensures s.centStart + s.centEnd == 2 * a.crosshairX
    ensures 0 <= w.lh ==> s.lhStart + s.lhEnd == 2 * a.crossStartCol + w.lh % 2
    ensures 0 <= w.rh ==> s.rhStart + s.rhEnd == 2 * a.crossWidth + w.rh % 2
  {
    var lhStart := a.crossStartCol - Half(w.lh);
    var rhStart := a.crossWidth - Half(w.rh);
    Spans(lhStart, lhStart + w.lh,
          a.crosshairX - Half(w.cent), a.crosshairX + Half(w.cent),
          rhStart, rhStart + w.rh)
  }

  /** One bound clamped the way the source does it: first raised to 0, then
      lowered to the last usable column `frameWidth - 1`. */
  function ClampIndex(v: int, frameWidth: int): (c: int)
    ensures 1 <= frameWidth ==> 0 <= c <= frameWidth - 1
    ensures 0 <= v <= frameWidth - 1 ==> c == v
    ensures 1 <= frameWidth && v < 0 ==> c == 0
    ensures frameWidth - 1 < v ==> c == frameWidth - 1
    ensures frameWidth < 1 ==> c == frameWidth - 1
  {
    var raised := if v < 0 then 0 else v;
    if frameWidth - 1 < raised then frameWidth - 1 else raised
  }

  /** Every bound lies on a column of a frame `frameWidth` wide. */
  predicate InFrame(s: Spans, frameWidth: int)
  {
    && 0 <= s.lhStart < frameWidth && 0 <= s.lhEnd < frameWidth
    && 0 <= s.centStart < frameWidth && 0 <= s.centEnd < frameWidth
    && 0 <= s.rhStart < frameWidth && 0 <= s.rhEnd < frameWidth
  }

  /** First pass of `validateOverlayParams`: negative bounds become 0. */
  function RaiseNegatives(s: Spans): Spans
  {
    Spans(if s.lhStart < 0 then 0 else s.lhStart,
          if s.lhEnd < 0 then 0 else s.lhEnd,
          if s.centStart < 0 then 0 else s.centStart,
          if s.centEnd < 0 then 0 else s.centEnd,
          if s.rhStart < 0 then 0 else s.rhStart,
          if s.rhEnd < 0 then 0 else s.rhEnd)
  }

  /** Second pass: bounds past the last usable column become that column. */
  function LowerOverflows(s: Spans, last: int): Spans
  {
    Spans(if last < s.lhStart then last else s.lhStart,
          if last < s.lhEnd then last else s.lhEnd,
          if last < s.centStart then last else s.centStart,
          if last < s.centEnd then last else s.centEnd,
          if last < s.rhStart then last else s.rhStart,
          if last < s.rhEnd then last else s.rhEnd)
  }

  /** `validateOverlayParams`: all six lower-bound checks, then all six
      upper-bound checks. Each output bound is the clamp of its own input
      alone, so clamping one bound never shifts another. */
  function ValidateSpans(s: Spans, frameWidth: int): (r: Spans)
    ensures r.lhStart == ClampIndex(s.lhStart, frameWidth)
    ensures r.lhEnd == ClampIndex(s.lhEnd, frameWidth)
    ensures r.centStart == ClampIndex(s.centStart, frameWidth)
    ensures r.centEnd == ClampIndex(s.centEnd, frameWidth)
    ensures r.rhStart == ClampIndex(s.rhStart, frameWidth)
    ensures r.rhEnd == ClampIndex(s.rhEnd, frameWidth)
    ensures 1 <= frameWidth ==> InFrame(r, frameWidth)
    ensures InFrame(s, frameWidth) ==> r == s
  {
    LowerOverflows(RaiseNegatives(s), frameWidth - 1)
  }

  /** Clamping twice is clamping once. */
  lemma ValidateSpansIdempotent(s: Spans, frameWidth: int)
    ensures ValidateSpans(ValidateSpans(s, frameWidth), frameWidth) == ValidateSpans(s, frameWidth)
  {
  }

  /** A bound the clamp moves, it moves only toward the frame, and it never
      reorders two bounds or lengthens the range between them. */
  lemma ClampKeepsOrder(v: int, u: int, frameWidth: int)
    ensures v <= u ==> ClampIndex(v, frameWidth) <= ClampIndex(u, frameWidth)
    ensures v <= u ==> ClampIndex(u, frameWidth) - ClampIndex(v, frameWidth) <= u - v
  {
  }

  /** `updateOverlayParams`: derive the windows, then clamp them. */
  function UpdateOverlayParams(a: Anchors, w: Widths, frameWidth: int): (r: Spans)
    ensures 1 <= frameWidth ==> InFrame(r, frameWidth)
    ensures r == ValidateSpans(DeriveSpans(a, w), frameWidth)
    ensures 1 <= frameWidth && 0 <= w.lh ==> 0 <= r.lhEnd - r.lhStart <= w.lh
    ensures 1 <= frameWidth && 0 <= w.rh ==> 0 <= r.rhEnd - r.rhStart <= w.rh
    ensures 1 <= frameWidth && 0 <= w.cent ==> 0 <= r.centEnd - r.centStart <= w.cent
  {
    var d := DeriveSpans(a, w);
    ClampKeepsOrder(d.lhStart, d.lhEnd, frameWidth);
    ClampKeepsOrder(d.rhStart, d.rhEnd, frameWidth);
    ClampKeepsOrder(d.centStart, d.centEnd, frameWidth);
    ValidateSpans(d, frameWidth)
  }

  /** The overlay part of `transmitChange` when the active tab is a profile
      view, of kind `kind`: only the vertical-overlay profile sends real
      windows; every other profile sends the all-zero "no overlay" value.
      FFT and frame views send no overlay at all, and are not covered here. */
  function TransmittedSpans(kind: ImageType, a: Anchors, w: Widths, frameWidth: int): (r: Spans)
    ensures kind == VertOverlay ==> r == UpdateOverlayParams(a, w, frameWidth)
    ensures kind != VertOverlay ==> r == NoOverlay
    ensures 1 <= frameWidth ==> InFrame(r, frameWidth)
  {
    if kind == VertOverlay then UpdateOverlayParams(a, w, frameWidth) else NoOverlay
  }
}

=== FILE: profile_lines.dfy ===
/** The "lines to average" slider and its companion spin box, as configured
    when a profile or FFT view becomes the active tab. */
module ProfileLines {
  import QtRange
  import opened ImageTypes

  /** Frame-worker values the configuration reads. `crosshairX` is -1 when
      no cross-hair is set. */
  datatype Worker = Worker(frameHeight: int, frameWidth: int,
                           vertLinesAvgd: int, horizLinesAvgd: int, crosshairX: int)

  /** The slider's range, its value (which is also the line count handed to
      `updateMeanRange`), and whether the slider and the spin box are enabled. */
  datatype LinesControl = LinesControl(range: QtRange.Range, value: int,
                                       sliderEnabled: bool, editEnabled: bool)

  /** Profiles anchored to the cross-hair. */
  predicate IsCrossProfile(kind: ImageType)
  {
    kind == VerticalCross || kind == HorizontalCross || kind == VertOverlay
  }

  /** Profiles that average along the frame's height rather than its width. */
  predicate AlongHeight(kind: ImageType)
  {
    kind == HorizontalMean || kind == HorizontalCross
  }

  /** The slider's range once its maximum is set: minimum 1 from
      construction, maximum the axis length. */
  function SliderRange(axis: int): (r: QtRange.Range)
    requires 1 <= axis
    ensures r == QtRange.Range(1, axis)
  {
    QtRange.SetMaximum(QtRange.SetMinimum(QtRange.Default, 1), axis)
  }

  /** A profile tab: the slider spans the axis being averaged over, starts at
      the worker's remembered line count for cross-hair profiles (the whole
      axis otherwise), and is usable only for a cross-hair profile with the
      cross-hair set, except that the vertical overlay always enables the
      slider itself. `kind` is the image type of the profile widget on the
      active tab; for a non-profile kind the result describes no screen the
      program shows. */
  function ProfileTab(kind: ImageType, w: Worker): (lc: LinesControl)
    requires 1 <= w.frameHeight && 1 <= w.frameWidth
    ensures lc.range.min == 1
    ensures AlongHeight(kind) ==> lc.range.max == w.frameHeight
    ensures !AlongHeight(kind) ==> lc.range.max == w.frameWidth
    ensures 1 <= lc.value <= lc.range.max
    ensures !IsCrossProfile(kind) ==> lc.value == lc.range.max
    ensures kind == HorizontalCross && 1 <= w.vertLinesAvgd <= w.frameHeight ==> lc.value == w.vertLinesAvgd
    ensures (kind == VerticalCross || kind == VertOverlay) && 1 <= w.horizLinesAvgd <= w.frameWidth
            ==> lc.value == w.horizLinesAvgd
    ensures lc.editEnabled <==> IsCrossProfile(kind) && w.crosshairX != -1
    ensures lc.sliderEnabled <==> lc.editEnabled || kind == VertOverlay
  {
    var frameMax := if AlongHeight(kind) then w.frameHeight else w.frameWidth;
    var startVal := if kind == HorizontalCross then w.vertLinesAvgd else frameMax;
    var startVal' := if kind == VerticalCross || kind == VertOverlay then w.horizLinesAvgd else startVal;
    var enable := IsCrossProfile(kind) && w.crosshairX != -1;
    var range := SliderRange(frameMax);
    LinesControl(range, QtRange.Bound(range, startVal'), enable || kind == VertOverlay, enable)
  }

  /** The FFT tab, and `fft_slider_enable` when its vertical-cross button is
      toggled: the slider spans the frame width, starts at the remembered
      horizontal line count, and is usable only when the vertical-cross
      button is checked and a cross-hair is set. */
  function FftTab(vCrossChecked: bool, w: Worker): (lc: LinesControl)
    requires 1 <= w.frameWidth
    ensures lc.range == QtRange.Range(1, w.frameWidth)
    ensures 1 <= lc.value <= w.frameWidth
    ensures 1 <= w.horizLinesAvgd <= w.frameWidth ==> lc.value == w.horizLinesAvgd
    ensures lc.sliderEnabled == lc.editEnabled
    ensures lc.sliderEnabled <==> vCrossChecked && w.crosshairX != -1
  {
    var range := SliderRange(w.frameWidth);
    var enable := vCrossChecked && w.crosshairX != -1;
    LinesControl(range, QtRange.Bound(range, w.horizLinesAvgd), enable, enable)
  }
}

=== FILE: qt_range.dfy ===
/** Value-range behaviour of Qt's integer input widgets (QSpinBox, QSlider).
    The controls lean on it to keep every number a user types, or a slot
    sets, inside the limits the widget was configured with. */
module QtRange {

  /** The [min, max] range held by a spin box or a slider. */
  datatype Range = Range(min: int, max: int) {
    predicate Valid() { min <= max }
  }

  /** Range of a freshly constructed spin box or slider. */
  const Default: Range := Range(0, 99)

  /** `setMinimum(m)`: the maximum is raised to `m` when it would fall below it. */
  function SetMinimum(r: Range, m: int): (r': Range)
    ensures r'.Valid() && r'.min == m
    ensures m <= r.max ==> r'.max == r.max
    ensures r.max < m ==> r'.max == m
  {
    if r.max < m then Range(m, m) else Range(m, r.max)
  }

  /** `setMaximum(m)`: the minimum is lowered to `m` when it would rise above it. */
  function SetMaximum(r: Range, m: int): (r': Range)
    ensures r'.Valid() && r'.max == m
    ensures r.min <= m ==> r'.min == r.min
    ensures m < r.min ==> r'.min == m
  {
    if m < r.min then Range(m, m) else Range(r.min, m)
  }

  /** `setValue(v)`: the widget holds the nearest value inside its range. */
  function Bound(r: Range, v: int): (b: int)
    requires r.Valid()
    ensures r.min <= b <= r.max
    ensures r.min <= v <= r.max ==> b == v
    ensures v < r.min ==> b == r.min
    ensures r.max < v ==> b == r.max
  {
    if v < r.min then r.min else if r.max < v then r.max else v
  }

  /** A value the user types and commits. The validator refuses a number
      beyond the range and, in the default `CorrectToPreviousValue` mode, an
      out-of-range entry reverts when editing finishes, so the widget only
      ever settles on an in-range entry and otherwise keeps `current`. */
  function Enter(r: Range, v: int, current: int): (b: int)
    ensures r.min <= v <= r.max ==> b == v
    ensures !(r.min <= v <= r.max) ==> b == current
    ensures r.min <= current <= r.max ==> r.min <= b <= r.max
  {
    if r.min <= v <= r.max then v else current
  }
}

=== FILE: save_control.dfy ===
/** The save controls: the "Save Frames" and "Stop Saving" buttons, the
    frame-count and averaging spin boxes and the file-name box, and the
    signals they send to the recording back end. The state is an immutable
    record; each slot is a function from state to a step. */
module SaveControl {
  import QtRange
  import FileName

  /** Upper limit of both save spin boxes. */
  const MaxFrames: int := 10000000

  /** Frame-count spin box: 0 (continuous) up to `MaxFrames`. */
  const FramesRange: QtRange.Range := QtRange.SetMaximum(QtRange.SetMinimum(QtRange.Default, 0), MaxFrames)

  /** Averaging spin box: 1 up to `MaxFrames`. */
  const AvgsRange: QtRange.Range := QtRange.SetMaximum(QtRange.SetMinimum(QtRange.Default, 1), MaxFrames)

  /** A C++ `unsigned int`. */
  type UInt32 = x: int | 0 <= x < 0x1_0000_0000

  /** The `int` an `unsigned int` becomes when passed to an `int` parameter
      such as `QSpinBox::setValue`: values from 2^31 up wrap to negatives. */
  function SignedInt(u: UInt32): (i: int)
    ensures -0x8000_0000 <= i < 0x8000_0000
    ensures (i - u) % 0x1_0000_0000 == 0
  {
    if u < 0x8000_0000 then u else u - 0x1_0000_0000
  }

  /** Enabled flags of the save widgets. */
  datatype Buttons = Buttons(stopSaving: bool, startSaving: bool, saveFinite: bool,
                             framesEdit: bool, avgsEdit: bool)

  /** No recording in progress: everything but "Stop Saving" is enabled. */
  const Idle: Buttons := Buttons(false, true, true, true, true)

  /** Recording: only "Stop Saving" is enabled. */
  const Busy: Buttons := Buttons(true, false, false, false, false)

  /** The save controls' state. `flightMode` is a start-up option. */
  datatype Controls = Controls(
    buttons: Buttons,
    fileName: string,
    frames: int,
    avgs: int,
    previousNumSaved: int,
    checkForOverwrites: bool,
    flightMode: bool)

  /** Signals sent to the back end. */
  datatype Signal =
    | StartSavingFinite(nFrames: int, fileName: string, nAvgs: int)
    | StartDataCollection(logName: string)
    | StopSaving
    | StopDataCollection

  /** What the slots cannot see: whether the target exists as a regular
      file, whether the user confirms overwriting it, and the two names the
      flight-mode file-name generator produces. */
  datatype Environment = Environment(targetExists: bool, confirmOverwrite: bool,
                                     rawDataName: string, gpsLogName: string)

  /** The next state and the signals sent on the way. */
  datatype Step = Step(next: Controls, emitted: seq<Signal>)

  /** Suffix of the secondary log started beside an ordinary recording. */
  const GpsSuffix: string := "-GPS-TEMP-SECONDARY.log"

  /** The states the controls can be in: the buttons show one of the two
      modes and every number shown lies within its spin box's range. */
  predicate Valid(c: Controls)
  {
    && (c.buttons == Idle || c.buttons == Busy)
    && 0 <= c.frames <= MaxFrames
    && 1 <= c.avgs <= MaxFrames
  }

  /** The controls as the constructor leaves them: "Stop Saving" disabled,
      the other widgets enabled, and each spin box at its default value 0
      bounded into its range. The overwrite flag and the remembered count
      are initialised in the class declaration, so they are parameters. */
  function Initial(flightMode: bool, checkForOverwrites: bool, previous: int): (c: Controls)
    ensures Valid(c)
    ensures c.buttons == Idle && c.fileName == []
    ensures c.frames == 0 && c.avgs == 1
  {
    Controls(Idle, [], QtRange.Bound(FramesRange, 0), QtRange.Bound(AvgsRange, 0),
             previous, checkForOverwrites, flightMode)
  }

  /** The frame count sent for an ordinary save: 0 stays 0 (continuous
      recording); a count below the averaging factor is raised to it, so a
      full averaging group is always recorded. */
  function CorrectFrameCount(frames: int, avgs: int): (n: int)
    requires 1 <= avgs
    ensures n == 0 <==> frames == 0
    ensures n != 0 ==> avgs <= n
    ensures frames <= n
    ensures n == frames || n == avgs
    ensures avgs <= frames ==> n == frames
  {
    if frames == 0 then 0
    else if frames < avgs then avgs
    else frames
  }

  /** Raising the count to the averaging factor is done once for all. */
  lemma CorrectFrameCountIdempotent(frames: int, avgs: int)
    requires 1 <= avgs
    ensures CorrectFrameCount(CorrectFrameCount(frames, avgs), avgs) == CorrectFrameCount(frames, avgs)
  {
  }

  /** `save_finite_button_slot`. In flight mode the file names come from the
      generator, there is no validation and no averaging; otherwise the name
      in the box must be accepted and the frame count is corrected first. A
      rejected name changes nothing and sends nothing. */
  function SaveFinite(c: Controls, env: Environment): (st: Step)
    requires 1 <= c.avgs
    ensures st.emitted == [] <==>
      !c.flightMode
      && !FileName.ValidateFileName(c.fileName, env.targetExists, c.checkForOverwrites,
                                    env.confirmOverwrite).Accepted?
    ensures st.emitted == [] ==> st.next == c
    ensures st.emitted != [] ==>
      && |st.emitted| == 2
      && st.next.buttons == Busy
      && st.next.previousNumSaved == st.next.frames
      && st.emitted[0].StartSavingFinite?
      && st.emitted[0].nFrames == st.next.frames
    ensures c.flightMode ==>
      st.emitted == [StartSavingFinite(c.frames, env.rawDataName, 1), StartDataCollection(env.gpsLogName)]
      && st.next.frames == c.frames
    ensures !c.flightMode && st.emitted != [] ==>
      && st.emitted[0].fileName == c.fileName
      && st.emitted[0].nAvgs == c.avgs
      && st.next.frames == CorrectFrameCount(c.frames, c.avgs)
      && st.emitted[1] == StartDataCollection(c.fileName + GpsSuffix)
    ensures st.next.fileName == c.fileName && st.next.avgs == c.avgs
    ensures st.next.checkForOverwrites == c.checkForOverwrites && st.next.flightMode == c.flightMode
  {
    if c.flightMode then
      Step(c.(buttons := Busy, previousNumSaved := c.frames),
           [StartSavingFinite(c.frames, env.rawDataName, 1), StartDataCollection(env.gpsLogName)])
    else if FileName.ValidateFileName(c.fileName, env.targetExists, c.checkForOverwrites,
                                      env.confirmOverwrite) == FileName.Accepted then
      var n := CorrectFrameCount(c.frames, c.avgs);
      Step(c.(buttons := Busy, frames := n, previousNumSaved := n),
           [StartSavingFinite(n, c.fileName, c.avgs), StartDataCollection(c.fileName + GpsSuffix)])
    else
      Step(c, [])
  }

  /** `stop_continous_button_slot`: stop both recordings, return the buttons
      to idle and put back the frame count that was sent at the start (the
      frame box bounds it into its range). */
  function Stop(c: Controls): (st: Step)
    ensures st.emitted == [StopSaving, StopDataCollection]
    ensures st.next.buttons == Idle
    ensures 0 <= st.next.frames <= MaxFrames
    ensures 0 <= c.previousNumSaved <= MaxFrames ==> st.next.frames == c.previousNumSaved
    ensures st.next.(buttons := c.buttons, frames := c.frames) == c
  {
    Step(c.(buttons := Idle, frames := QtRange.Bound(FramesRange, c.previousNumSaved)),
         [StopSaving, StopDataCollection])
  }

  /** `updateSaveFrameNum_slot`: the back end reports `n` frames still to
      save. Zero means the recording finished, which resets the controls as
      a stop does but sends nothing; otherwise the count is only displayed,
      after the unsigned count has been passed on as an `int`. */
  function Progress(c: Controls, n: UInt32): (st: Step)
    ensures st.emitted == []
    ensures n == 0 ==> st.next == Stop(c).next
    ensures 0 < n ==> st.next == c.(frames := st.next.frames)
    ensures 0 < n <= MaxFrames ==> st.next.frames == n
    ensures MaxFrames < n < 0x8000_0000 ==> st.next.frames == MaxFrames
    ensures 0x8000_0000 <= n ==> st.next.frames == 0
  {
    if n == 0 then Step(c.(buttons := Idle, frames := QtRange.Bound(FramesRange, c.previousNumSaved)), [])
    else Step(c.(frames := QtRange.Bound(FramesRange, SignedInt(n))), [])
  }

  /** Starting a recording and stopping it again leaves the controls as they
      were, except that the frame box and the remembered count now hold the
      count that was sent. */
  lemma StartThenStop(c: Controls, env: Environment)
    requires Valid(c) && c.buttons == Idle
    requires SaveFinite(c, env).emitted != []
    ensures var started := SaveFinite(c, env).next;
            Stop(started).next == c.(frames := started.frames, previousNumSaved := started.frames)
    ensures !c.flightMode && (c.frames == 0 || c.avgs <= c.frames) ==>
            Stop(SaveFinite(c, env).next).next == c.(previousNumSaved := c.frames)
  {
  }

  /** User and back-end events reaching the save controls. */
  datatype Event =
    | ClickSave(env: Environment)
    | ClickStop
    | FramesRemaining(n: UInt32)
    | EditFileName(name: string)
    | EditFrames(v: int)
    | EditAvgs(v: int)
    | RemoteSave(name: string, nFrames: UInt32, nAvgs: UInt32, env: Environment)

  /** A click on "Save Frames"; a disabled button ignores it. */
  function ClickSaveButton(c: Controls, env: Environment): Step
    requires 1 <= c.avgs
  {
    if c.buttons.saveFinite then SaveFinite(c, env) else Step(c, [])
  }

  /** A click that starts a recording disables "Save Frames", so a second
      click cannot start another one before a stop or the end of the
      recording. */
  lemma NoSecondStart(c: Controls, env: Environment, env2: Environment)
    requires 1 <= c.avgs
    ensures var first := ClickSaveButton(c, env);
            first.emitted != [] ==> c.buttons.saveFinite && ClickSaveButton(first.next, env2).emitted == []
  {
  }

  /** `save_remote_slot`: a save requested over the network turns overwrite
      checking off for good, fills in the boxes (the unsigned counts passed
      on as `int`s and bounded into range) and clicks "Save Frames". */
  function SaveRemote(c: Controls, name: string, nFrames: UInt32, nAvgs: UInt32, env: Environment): (st: Step)
    ensures !st.next.checkForOverwrites
    ensures st.next.fileName == name
    ensures st.next.avgs == QtRange.Bound(AvgsRange, SignedInt(nAvgs))
    ensures !c.buttons.saveFinite ==> st.emitted == []
    ensures !c.buttons.saveFinite ==> st.next.frames == QtRange.Bound(FramesRange, SignedInt(nFrames))
    ensures !c.flightMode && st.emitted != [] ==>
      st.next.frames == CorrectFrameCount(QtRange.Bound(FramesRange, SignedInt(nFrames)),
                                          QtRange.Bound(AvgsRange, SignedInt(nAvgs)))
    ensures !c.flightMode && c.buttons.saveFinite ==> (st.emitted != [] <==> FileName.WellFormed(name))
    ensures !c.flightMode && st.emitted != [] ==>
      st.emitted == [StartSavingFinite(st.next.frames, name, st.next.avgs), StartDataCollection(name + GpsSuffix)]
    ensures c.flightMode && c.buttons.saveFinite ==>
      st.emitted == [StartSavingFinite(st.next.frames, env.rawDataName, 1), StartDataCollection(env.gpsLogName)]
  {
    var filled := c.(checkForOverwrites := false, fileName := name,
                     frames := QtRange.Bound(FramesRange, SignedInt(nFrames)),
                     avgs := QtRange.Bound(AvgsRange, SignedInt(nAvgs)));
    ClickSaveButton(filled, env)
  }

  /** Counts of 2^31 or more arrive as negative `int`s, so the boxes fall to
      their minimums: an idle remote save of three thousand million frames
      averaged three thousand million at a time starts a continuous,
      unaveraged recording. */
  lemma RemoteSaveHugeCounts(c: Controls, name: string, env: Environment)
    requires c.buttons == Idle && !c.flightMode
    requires FileName.WellFormed(name)
    ensures SaveRemote(c, name, 3000000000, 3000000000, env).emitted
            == [StartSavingFinite(0, name, 1), StartDataCollection(name + GpsSuffix)]
  {
  }

  /** One event. A disabled button or spin box ignores the user. */
  function Apply(c: Controls, e: Event): Step
    requires 1 <= c.avgs
  {
    match e
    case ClickSave(env) => ClickSaveButton(c, env)
    case ClickStop => if c.buttons.stopSaving then Stop(c) else Step(c, [])
    case FramesRemaining(n) => Progress(c, n)
    case EditFileName(name) => Step(c.(fileName := name), [])
    case EditFrames(v) =>
      if c.buttons.framesEdit then Step(c.(frames := QtRange.Enter(FramesRange, v, c.frames)), []) else Step(c, [])
    case EditAvgs(v) =>
      if c.buttons.avgsEdit then Step(c.(avgs := QtRange.Enter(AvgsRange, v, c.avgs)), []) else Step(c, [])
    case RemoteSave(name, nFrames, nAvgs, env) => SaveRemote(c, name, nFrames, nAvgs, env)
  }

  /** Every event keeps the controls in a valid state, and every recording it
      starts asks for at least one frame per record and, outside flight mode,
      for a whole number of averaging groups or continuous recording. */
  lemma ApplyKeepsValid(c: Controls, e: Event)
    requires Valid(c)
    ensures Valid(Apply(c, e).next)
    ensures Apply(c, e).next.flightMode == c.flightMode
    ensures forall s :: s in Apply(c, e).emitted ==> WellFormedStart(s, c.flightMode)
  {
    match e
    case ClickSave(env) =>
    case ClickStop =>
    case FramesRemaining(n) =>
    case EditFileName(name) =>
    case EditFrames(v) =>
    case EditAvgs(v) =>
    case RemoteSave(name, nFrames, nAvgs, env) =>
  }

  /** A start request that averages at least one frame; outside flight mode
      it is continuous or covers at least one full averaging group; in flight
      mode it does not average. */
  predicate WellFormedStart(s: Signal, flightMode: bool)
  {
    s.StartSavingFinite? ==>
      && 1 <= s.nAvgs
      && 0 <= s.nFrames
      && (flightMode ==> s.nAvgs == 1)
      && (!flightMode ==> s.nFrames == 0 || s.nAvgs <= s.nFrames)
  }

  /** Events applied one after another; the signals are concatenated. */
  function Run(c: Controls, es: seq<Event>): Step
    requires Valid(c)
    decreases |es|
  {
    if |es| == 0 then Step(c, [])
    else
      var first := Apply(c, es[0]);
      ApplyKeepsValid(c, es[0]);
      var rest := Run(first.next, es[1..]);
      Step(rest.next, first.emitted + rest.emitted)
  }

  /** Safety of any run from a valid state: the controls stay valid, and
      every recording started asks for well-formed frame and averaging
      counts. */
  lemma {:induction false} RunKeepsValid(c: Controls, es: seq<Event>)
    requires Valid(c)
    ensures Valid(Run(c, es).next)
    ensures forall s :: s in Run(c, es).emitted ==> WellFormedStart(s, c.flightMode)
    decreases |es|
  {
    if |es| != 0 {
      var first := Apply(c, es[0]);
      ApplyKeepsValid(c, es[0]);
      RunKeepsValid(first.next, es[1..]);
    }
  }

  /** From the constructor's state, the controls stay valid along any run. */
  lemma InitialRunsStayValid(flightMode: bool, checkForOverwrites: bool, previous: int, es: seq<Event>)
    ensures Valid(Run(Initial(flightMode, checkForOverwrites, previous), es).next)
    ensures forall s :: s in Run(Initial(flightMode, checkForOverwrites, previous), es).emitted
                        ==> WellFormedStart(s, flightMode)
  {
    RunKeepsValid(Initial(flightMode, checkForOverwrites, previous), es);
  }
}
